=== FILE: README.md ===
# PDFCrop core, modelled in Dafny

PDFCrop is a small desktop tool: open a PDF, step through its pages, drag a
rectangle on the rendered page to crop it, turn it left or right, save the
result, or print the file. This project models the logic under those
buttons and proves properties of it:

- **Pages and documents** (`pdf.dfy`, module `Pdf`). A document holds the media box of every page and a page cursor that saturates at both ends. A page held for editing holds its media box, the box snapshotted when it was taken from the file, a rotation counter that moves by ±90, and a cached rendering. `IsChanged` is "rotation not a whole turn, or box differs from the snapshot". `GetBytes` re-renders only a changed page.
- **Selection transform** (`selection.dfy`, module `Selection`). It maps a drag on the page image (pixels, y down) to a crop box in page units (y up) and normalises any drag direction into a box with ordered edges.
- **Window handlers** (`gui.dfy`, module `Gui`). The open/prev/next/turn/save/print buttons. The guards cover a window with no file or no page. The save button crops to the selection and prompts only for a changed page.
- **Ghostscript** (`ghostscript.dfy`, module `Ghostscript`). The executable lookup (`gs`, then `gswin64c` on Windows only) and the print command line.
- **Print dispatcher** (`printing.dfy`, module `Printing`). The steps run in order: file check, native spooling, Ghostscript, then the OS print command or the not-implemented error. The source's nested checks are proved equal to an explicit ordered chain of strategies (`RunChain`, and the loop `Dispatcher`).
- `platform.dfy` names the operating systems and `wrappers.dfy` holds `Option` and Python truthiness. `geometry.dfy` holds the media box.

Everything the environment decides is an input: the PDF library's rendering
(`render`), its effect on the media box when a rotation is moved into the
page content (`reorient`), `isfile`, `which`, and whether each print
strategy completes without raising. The operating system is the string
`platform.system()` returns.

The rotation counter is unbounded: only `is_changed` reduces it modulo 360
(pdfcrop/pdf.py:70), and the model keeps it unbounded too. Python's `%` by a positive modulus floors, so it never returns a negative
result. Dafny's `%` behaves the same way, and `rotation % 360` is written as is.
Coordinates are `real`; the source's floating point rounding is not modelled.

## Model

| member | source | states |
|---|---|---|
| `Pdf.NewPage` | pdfcrop/pdf.py:34-41 | a page just taken from the file has rotation counter 0, is not changed, its box and snapshot are the file's box, and its cache is the rendering of that state |
| `Pdf.IsChanged` | pdfcrop/pdf.py:69-73 | a page is changed exactly when its counter is not a whole turn or its box differs from the snapshot |
| `Pdf.Crop` | pdfcrop/pdf.py:62-67 | the four edges become exactly the given values, in any order, with no check; rotation, snapshot and cache are kept; the result is changed iff the turn is partial or the new box differs from the snapshot |
| `Pdf.CropChangedIff` | pdfcrop/pdf.py:62-73 | after a crop the page is changed iff the turn is partial or the given edges differ from the snapshot; cropping back to the snapshot on a whole turn makes the page unchanged again |
| `Pdf.CropSize` | pdfcrop/pdf.py:62-77 | the size after a crop is (right - left, top - bottom) of the given edges |
| `Pdf.CropLastWins` | pdfcrop/pdf.py:62-67 | a later crop replaces an earlier one completely |
| `Pdf.GetSize` | pdfcrop/pdf.py:75-77 | both dimensions are non-negative exactly when the box's edges are in order |
| `Pdf.GetBytes` | pdfcrop/pdf.py:49-52 | a changed page is re-rendered from its current box and rotation and the cache replaced; an unchanged page returns its cache and is left untouched; the returned bytes are always what the cache then holds, and the geometry never changes |
| `Pdf.GetBytesStable` | pdfcrop/pdf.py:49-52 | reading a page's bytes twice gives the same bytes and page as reading once |
| `Pdf.FreshPageReadsInitialRender` | pdfcrop/pdf.py:39-52 | a page never edited reads as its first rendering without re-rendering |
| `Pdf.RotateLeft` | pdfcrop/pdf.py:79-83 | a left turn lowers the counter by 90, turns the box by 270 degrees through the library, and keeps the snapshot and cache |
| `Pdf.RotateRight` | pdfcrop/pdf.py:85-89 | a right turn raises the counter by 90, turns the box by 90 degrees through the library, and keeps the snapshot and cache |
| `Pdf.OppositeTurnsCancel` | pdfcrop/pdf.py:79-89 | a left turn then a right turn (or the reverse) restores the rotation counter and keeps the snapshot and cache |
| `Pdf.QuarterTurnChanges` | pdfcrop/pdf.py:69-89 | from a whole-turn counter, one turn either way makes the page changed whatever the box |
| `Pdf.RotateAllCounter` | pdfcrop/pdf.py:79-89 | after any sequence of turns the counter has moved by 90 times (rights minus lefts), with snapshot and cache kept |
| `Pdf.FourTurnsWhole` | pdfcrop/pdf.py:69-89 | four turns the same way keep the counter's residue mod 360, and from a fresh page give 0 mod 360 |
| `Pdf.NextPage` | pdfcrop/pdf.py:20-24 | the cursor moves up by one exactly when it is below the last index, otherwise it stays; the file is untouched and a valid cursor stays valid |
| `Pdf.PrevPage` | pdfcrop/pdf.py:26-30 | the cursor moves down by one exactly when it is above 0, otherwise it stays; a valid cursor stays valid |
| `Pdf.CurrentPage` | pdfcrop/pdf.py:14-18 | a page exists exactly when the cursor indexes the file; it is a fresh page: its box and snapshot are the file's box for that index, its counter is 0, it is unchanged, and its cache is the rendering of that box unturned |
| `Pdf.NavigateKeepsValid` | pdfcrop/pdf.py:11-30 | no sequence of next/prev moves takes a valid cursor out of [0, pagecount) or alters the file |
| `Pdf.NavigationSaturates` | pdfcrop/pdf.py:20-30 | next at the last page and prev at page 0 change nothing, so repeating them is idempotent |
| `Pdf.NextPrevInverse` | pdfcrop/pdf.py:20-30 | away from the ends, prev undoes next and next undoes prev |
| `Pdf.NextRepeated` | pdfcrop/pdf.py:20-24 | n presses of next from a valid cursor reach min(cursor + n, last index): no wrap-around |
| `Pdf.PrevRepeated` | pdfcrop/pdf.py:26-30 | n presses of prev reach max(cursor - n, 0) |
| `Selection.SelectionToBox` | pdfcrop/gui.py:157-171 | the computed box has top >= bottom and right >= left, and its corners are the two mapped drag points |
| `Selection.DragDirectionSymmetric` | pdfcrop/gui.py:161-171 | dragging the same rectangle in reverse, or along its other diagonal, gives the identical box |
| `Selection.AxisEnds` | pdfcrop/gui.py:161-165 | pixel y = 0 maps to the box height, y = image height maps to 0, x = 0 to 0 and x = image width to the box width; a lower row never maps higher |
| `Selection.LetterPageExample` | pdfcrop/gui.py:157-171 | a 612 x 792 page shown as an 800 x 600 image, dragged from (100, 100) to (300, 300), crops to [76.5, 229.5] x [396, 660] |
| `Selection.SelectionWithinPage` | pdfcrop/gui.py:157-171 | a drag on the image of a box with non-negative sides gives a box within [0, width] x [0, height] |
| `Selection.OffsetBoxMisplaced` | pdfcrop/gui.py:157-172 | as written, selecting the whole image of the box [100, 300] x [100, 300] gives [0, 200] x [0, 200], which lies outside the page |
| `Selection.SelectionToPageBox` | pdfcrop/gui.py:157-171 | the corrected box is ordered and spanned by the two drag points, placed relative to the media box's lower-left corner |
| `Selection.PageBoxSymmetric` | pdfcrop/gui.py:161-171 | the corrected box does not depend on drag direction either |
| `Selection.WholeImageSelectsPage` | pdfcrop/gui.py:157-171 | with the correction, selecting the whole image selects exactly the current media box |
| `Selection.PageSelectionWithinBox` | pdfcrop/gui.py:157-171 | with the correction, any drag on the image selects a box inside the current media box |
| `Selection.PageBoxAgreesAtOrigin` | pdfcrop/gui.py:157-171 | on a media box anchored at the origin the corrected and as-written transforms give the same box |
| `Gui.LoadPage` | pdfcrop/gui.py:80-86 | with no file open nothing happens; otherwise the index error is raised, leaving the window as it was, exactly when the cursor names no page, and else the cursor's page is installed fresh |
| `Gui.DisplayPage` | pdfcrop/gui.py:95-105 | showing the page keeps its geometry, file and selection; a changed page's cache becomes the rendering of its current state, an unchanged page is left as it is |
| `Gui.Reload` | pdfcrop/gui.py:80-105 | loading sets the file and keeps the selection; it raises the index error exactly when the cursor names no page, and otherwise installs the cursor's page fresh from the file |
| `Gui.OpenPdf` | pdfcrop/gui.py:70-78 | an empty path does nothing; otherwise the file opens at page 0 with the selection cleared, and the index error is raised exactly for a file with no pages, which keeps the old page; with pages, the window's page is the document's current page (counter 0, first rendering) |
| `Gui.Navigate` | pdfcrop/gui.py:117-129 | the prev/next buttons: with no file open nothing happens; otherwise the cursor moves and the page under it is reloaded fresh, discarding edits and keeping the selection, without fault on a consistent window; the new page is exactly the document's current page, counter 0 and first rendering |
| `Gui.PrevPage` | pdfcrop/gui.py:117-122 | with no file open nothing happens; otherwise the cursor steps back as the document's prev does and, on a consistent window, the page under it is reloaded fresh without fault |
| `Gui.NextPage` | pdfcrop/gui.py:124-129 | with no file open nothing happens; otherwise the cursor steps on as the document's next does and, on a consistent window, the page under it is reloaded fresh without fault |
| `Gui.RotateLeft` | pdfcrop/gui.py:186-190 | with no page nothing happens; otherwise the counter drops by 90, the box is reoriented by 270 degrees, and the snapshot is kept |
| `Gui.RotateRight` | pdfcrop/gui.py:192-196 | with no page nothing happens; otherwise the counter rises by 90, the box is reoriented by 90 degrees, and the snapshot is kept |
| `Gui.CropToSelection` | pdfcrop/gui.py:155-172 | the crop is applied only when a selection exists, and then sets the box to the selection mapped with the page's size measured from the origin, well-formed; rotation, snapshot and cache are kept |
| `Gui.CropToSelectionCorrected` | pdfcrop/gui.py:155-172 | the corrected crop step: applied only with a selection, mapping it relative to the media box's lower-left corner |
| `Gui.SaveDecision` | pdfcrop/gui.py:174-181 | the prompt happens exactly for a changed page and a save exactly when a name was also chosen; a saved file is reopened with the selection cleared, and the window's page is then the reopened document's current page: counter 0, box and snapshot the saved box, cache its first rendering; otherwise the cropped page stays in the window with the selection still set |
| `Gui.SaveSelection` | pdfcrop/gui.py:153-181 | with no page the handler faults and changes nothing; otherwise the page is cropped in place as written and the save decision follows, so after no prompt or a dismissed prompt the cropped page and the selection remain |
| `Gui.SaveSelectionCorrected` | pdfcrop/gui.py:153-181 | the save button with the corrected crop step, otherwise deciding exactly as the as-written handler |
| `Gui.ClearRect` | pdfcrop/gui.py:198-201 | the clear-crop button forgets the selection and leaves file and page alone |
| `Gui.PrintPage` | pdfcrop/gui.py:203-204 | the print button faults without a file, and otherwise runs the dispatcher on the open file's path with no bytes, so native printing is never attempted |
| `Gui.UnmodifiedPageSavesNothing` | pdfcrop/gui.py:153-181 | an unmodified page with no selection prompts for nothing and the window is left as it was |
| `Gui.ClearedSelectionCropsNothing` | pdfcrop/gui.py:153-201 | after clear-crop, saving does not crop: the page's box stays as it was |
| `Gui.SecondPressRecrops` | pdfcrop/gui.py:153-181 | a second press of save with no new drag crops the already cropped page again with the same selection |
| `Gui.SaveOffsetPrompts` | pdfcrop/gui.py:155-181 | as written, a whole-image selection on a page whose box and snapshot are [100, 300] x [100, 300] crops to [0, 200] x [0, 200] and prompts, while the corrected handler finds the page unchanged |
| `Gui.SaveCropsWithinPage` | pdfcrop/gui.py:155-172 | with the correction, a selection on the image crops to a well-formed box inside the page's current media box |
| `Gui.SaveSelectionAtOrigin` | pdfcrop/gui.py:155-181 | on a page whose box starts at the origin the corrected and as-written save handlers give the same result and window |
| `Gui.HandlersKeepConsistent` | pdfcrop/gui.py:117-196 | from a consistent window (open file implies valid cursor and loaded page), any run of prev/next presses raises nothing and stays consistent, and so do the turns |
| `Gui.GuardsWithoutDocument` | pdfcrop/gui.py:117-196 | with no file open prev/next are no-ops, and with no page the turns are no-ops whether or not a file is open |
| `Ghostscript.GhostscriptCmd` | pdfcrop/printing/ghostscript.py:7-12 | a truthy `gs` lookup is returned; when it is falsy, Windows returns the `gswin64c` lookup, and no other system falls back |
| `Ghostscript.Device` | pdfcrop/printing/ghostscript.py:20 | the device is `mswinpr2` exactly on Windows, `lpr` otherwise |
| `Ghostscript.GhostscriptArgv` | pdfcrop/printing/ghostscript.py:22-37 | the command line is the executable, `-dNOPAUSE -dBATCH -dQUIET -dPDFFitPage`, the device flag, the output-file flag only for a truthy printer, then `-dPrinted -f <path>` with the path last |
| `Ghostscript.PrintGhostscript` | pdfcrop/printing/ghostscript.py:15-39 | a truthy command is used as given; otherwise the lookup's result is used, and a failed lookup leaves no runnable command line |
| `Ghostscript.ArgvRoundTrip` | pdfcrop/printing/ghostscript.py:22-37 | reading the command line back recovers the executable, the device, the printer name (when truthy) and the path |
| `Ghostscript.OutputFlagIffPrinter` | pdfcrop/printing/ghostscript.py:31-32 | the element right after the device flag is an output-file flag exactly when a truthy printer name is given |
| `Printing.NativeRouteFor` | pdfcrop/printing/__init__.py:23-35 | raw bytes go to CUPS exactly on Linux and Darwin, to the raw spooler exactly on Windows, and nowhere (not implemented) exactly on the other systems |
| `Printing.OsFallback` | pdfcrop/printing/__init__.py:64-67 | the last resort is the shell print verb exactly on Windows and `lp` otherwise |
| `Printing.GhostscriptAction` | pdfcrop/printing/__init__.py:52-55 | Ghostscript is run exactly when the lookup gave a truthy command, printing the file path with no printer name |
| `Printing.PrintPdf` | pdfcrop/printing/__init__.py:38-67 | a missing file, and only that, fails before any strategy; strategies run in fallback order, each at most once; a success or a propagated failure is the last strategy tried; only the OS fallback's failure propagates; not-implemented only on an unknown system |
| `Printing.Stages` | pdfcrop/printing/__init__.py:38-67 | the ordered strategy list always ends in a step that stops the chain |
| `Printing.Dispatcher` | pdfcrop/printing/__init__.py:38-67 | iterating the strategy list and stopping at the first success, uncaught failure or stop gives the chain's result |
| `Printing.PrintPdfIsChain` | pdfcrop/printing/__init__.py:38-67 | for every environment, the source's nested checks equal running the ordered strategy list |
| `Printing.MissingFileFirst` | pdfcrop/printing/__init__.py:39-40 | a missing file ends the dispatch with the missing-file error and nothing tried, and only a missing file does |
| `Printing.NativeOnlyWithData` | pdfcrop/printing/__init__.py:42-50 | native printing is tried first exactly when the file exists and the bytes are non-empty; its success returns at once |
| `Printing.NativeFailureFallsThrough` | pdfcrop/printing/__init__.py:33-50 | a native failure, including an unknown system's not-implemented error, is caught, and the dispatch continues exactly as it would without bytes |
| `Printing.GhostscriptOnlyIfFound` | pdfcrop/printing/__init__.py:52-59 | Ghostscript is tried only when a command was found; once the file exists and native printing did not succeed, a found command that completes ends the dispatch printed by Ghostscript, and its failure moves on to the OS step |
| `Printing.UnsupportedOsLast` | pdfcrop/printing/__init__.py:61-62 | the not-implemented error arises exactly for an existing file on an unknown system after native and Ghostscript failed or were skipped |
| `Printing.OsFallbackUncaught` | pdfcrop/printing/__init__.py:61-67 | on a known system the last step is `startfile(path, "print")` on Windows and `lp path` otherwise, and its failure propagates |
| `Printing.LpScenario` | pdfcrop/printing/__init__.py:38-67 | on Linux, with no bytes and no Ghostscript, the only step is `lp` with the exact path |

## Left out

- PDF parsing, writing and rendering belong to the PDF library. Rendering is the parameter `render`, a function of the media box and rotation counter. The content transforms that `transfer_rotation_to_content` adds (pdfcrop/pdf.py:82,88) are not part of its input, so a left turn followed by a right turn renders like an untouched page, while the real file keeps both transforms. The effect of `transfer_rotation_to_content` on the media box is the parameter `reorient`.
- The snapshot of the original box is modelled as independent of the edited page. This relies on the library copying the page when it is added to the writer.
- Box comparison in `is_changed` uses the library's `hash_bin`, which also distinguishes integer from float entries. The model compares box values.
- The `save` call (pdfcrop/gui.py:180) writes the file through the PDF library. The reopen that follows (line 181) is modelled on the assumption that the written file reads back as one page whose media box is the saved page's box.
- Rasterising the page image, zoom (`zoom_in`/`zoom_out`), DPI, the canvas, mouse tracking, the status bar and window titles are UI plumbing. A finished drag is modelled as the selection `rect`.
- `open_chrome`, the "Open in Browser" toolbar handler (pdfcrop/gui.py:53, 183-184), is left out. It reads `self.pdf_path`, which nothing assigns, so every press raises `AttributeError` and nothing is opened.
- Native printing is left out: the printer dialog, the Windows spooler calls (pdfcrop/printing/windows.py) and the CUPS job (pdfcrop/printing/cups.py). Whether it completes without raising is the input `nativeOk`. The printer name and job title it passes are not modelled.
- Running subprocesses, `isfile` and `which` are inputs to the model, not executed.
- A page's own `/Rotate` entry from the file is not modelled. The library's turn then covers that entry plus the new quarter turn, and `reorient` sees only the quarter turn.
- The messages printed for caught native and Ghostscript failures (pdfcrop/printing/__init__.py:48,57) are not modelled. They are logging only.
- `MediaX`, `MediaY`, `SelectionToBox`, `SelectionToPageBox`, `CropToSelection`, `CropToSelectionCorrected`, `SaveSelection`, `SaveSelectionCorrected`: every member taking an image size excludes a zero image width or height by a precondition. A zero size would raise a division error, and a rendered image always has positive size.
- The global application object in pdfcrop/app.py is left out. The operating system is an explicit argument.

## Findings

| source | as written | input that shows it | evidently intended | confidence | as-written member | corrected member |
|---|---|---|---|---|---|---|
| pdfcrop/gui.py:157-171 | page coordinates are computed as offsets from 0 (`start_x/image_width*mbox_width`, `(1 - start_y/image_height)*mbox_height`), ignoring the media box's own left and bottom | a page whose media box is [100, 300] x [100, 300], for example a page cropped and saved by this tool and then reopened: selecting the whole 200 x 200 image crops to [0, 200] x [0, 200], outside the page | add the box's left to x and its bottom to y, so that the selection lands on the region shown in the image | high that the offset is dropped; medium on how often it is reached; not executed | `Selection.OffsetBoxMisplaced` (about `Selection.SelectionToBox`), `Gui.SaveOffsetPrompts` (about `Gui.SaveSelection`) | `Selection.SelectionToPageBox` (`Selection.WholeImageSelectsPage`, `Selection.PageSelectionWithinBox`), `Gui.SaveSelectionCorrected` (`Gui.SaveCropsWithinPage`) |

`Gui.SaveSelection` models the handler as written. `Gui.SaveSelectionCorrected` is the same handler with the corrected crop step. `Gui.SaveSelectionAtOrigin` proves the two agree whenever the media box starts at the origin, which is the usual case for a page straight from a file. `Gui.SaveDecision` shows how the bug is reached: a saved crop is reopened with the cropped box, which need not start at the origin.

=== FILE: geometry.dfy ===
/** Page-space rectangles, as the PDF library's `RectangleObject` holds them. */
module Geometry {

  /** A media box: lower-left corner (left, bottom), upper-right corner (right, top). */
  datatype Box = Box(left: real, bottom: real, right: real, top: real)
  {
    function Width(): real { right - left }

    function Height(): real { top - bottom }

    /** Edges in order: the box is not inverted on either axis. */
    predicate WellFormed() {
      bottom <= top && left <= right
    }

    /** `inner` lies within this box. */
    predicate Contains(inner: Box) {
      && left <= inner.left && inner.right <= right
      && bottom <= inner.bottom && inner.top <= top
    }
  }
}

=== FILE: ghostscript.dfy ===
/** Finding a Ghostscript executable and building its print command line. */
module Ghostscript {
  import opened Wrappers
  import opened Platform

  /** A search-path lookup: the absolute path of a command name, or `None`. */
  type Which = string -> Option<string>

  const FixedFlags: seq<string> := ["-dNOPAUSE", "-dBATCH", "-dQUIET", "-dPDFFitPage"]
  const DevicePrefix := "-sDEVICE="
  const OutputPrefix := "-sOutputFile='"
  const PrintedFlag := "-dPrinted"
  const FileFlag := "-f"

  /** `gs` on the search path; failing that, and only on Windows, `gswin64c`. */
  function GhostscriptCmd(os: string, which: Which): (cmd: Option<string>)
    ensures TruthyString(which("gs")) ==> cmd == which("gs")
    ensures IsWin(os) && !TruthyString(which("gs")) ==> cmd == which("gswin64c")
    ensures cmd == which("gs") || (IsWin(os) && !TruthyString(which("gs")) && cmd == which("gswin64c"))
  {
    var cmd := which("gs");
    if !TruthyString(cmd) && IsWin(os) then which("gswin64c") else cmd
  }

  /** The print device: the Windows printer driver on Windows, the lpr spooler elsewhere. */
  function Device(os: string): (dev: string)
    ensures dev == "mswinpr2" <==> IsWin(os)
    ensures dev == "mswinpr2" || dev == "lpr"
  {
    if IsWin(os) then "mswinpr2" else "lpr"
  }

  function OutputFileFlag(name: string): string {
    OutputPrefix + name + "'"
  }

  predicate IsOutputFileFlag(s: string) {
    |s| > |OutputPrefix| && s[..|OutputPrefix|] == OutputPrefix && s[|s| - 1] == '\''
  }

  /** The command line: executable, fixed flags, device, optional printer, then the input file last. */
  function GhostscriptArgv(os: string, gsCmd: string, printerName: Option<string>, pdfPath: string): (argv: seq<string>)
    ensures |argv| == if TruthyString(printerName) then 10 else 9
    ensures argv[0] == gsCmd && argv[1..5] == FixedFlags && argv[5] == DevicePrefix + Device(os)
    ensures TruthyString(printerName) ==> argv[6] == OutputFileFlag(printerName.value)
    ensures argv[|argv| - 3..] == [PrintedFlag, FileFlag, pdfPath]
  {
    [gsCmd] + FixedFlags + [DevicePrefix + Device(os)]
    + (if TruthyString(printerName) then [OutputFileFlag(printerName.value)] else [])
    + [PrintedFlag, FileFlag, pdfPath]
  }

  /**
   * The command line handed to the subprocess: a truthy `gsCmd` is used as
   * given, otherwise the lookup's result. `None` is a lookup that found
   * nothing, for which no runnable command line exists.
   */
  function PrintGhostscript(os: string, pdfPath: string, gsCmd: Option<string>,
                            printerName: Option<string>, which: Which): (argv: Option<seq<string>>)
    ensures TruthyString(gsCmd) ==> argv == Some(GhostscriptArgv(os, gsCmd.value, printerName, pdfPath))
    ensures !TruthyString(gsCmd) ==> (argv.Some? <==> GhostscriptCmd(os, which).Some?)
    ensures !TruthyString(gsCmd) && argv.Some? ==>
              argv.value == GhostscriptArgv(os, GhostscriptCmd(os, which).value, printerName, pdfPath)
  {
    var cmd := if TruthyString(gsCmd) then gsCmd else GhostscriptCmd(os, which);
    match cmd
    case None => None
    case Some(c) => Some(GhostscriptArgv(os, c, printerName, pdfPath))
  }

  /** What a command line of the shape above asks Ghostscript to do. */
  datatype GsCall = GsCall(cmd: string, device: string, printer: Option<string>, path: string)

  /** Reads a command line back; `None` for anything not of the shape `GhostscriptArgv` builds. */
  function ParseArgv(argv: seq<string>): Option<GsCall> {
    if |argv| != 9 && |argv| != 10 then None
    else if argv[1..5] != FixedFlags then None
    else if !(|argv[5]| >= |DevicePrefix| && argv[5][..|DevicePrefix|] == DevicePrefix) then None
    else if argv[|argv| - 3] != PrintedFlag || argv[|argv| - 2] != FileFlag then None
    else
      var device := argv[5][|DevicePrefix|..];
      if |argv| == 9 then Some(GsCall(argv[0], device, None, argv[8]))
      else if IsOutputFileFlag(argv[6]) then
        Some(GsCall(argv[0], device, Some(argv[6][|OutputPrefix|..|argv[6]| - 1]), argv[9]))
      else None
  }

  /** The command line can be read back: executable, device, printer (when truthy) and path. */
  lemma ArgvRoundTrip(os: string, gsCmd: string, printerName: Option<string>, pdfPath: string)
    ensures ParseArgv(GhostscriptArgv(os, gsCmd, printerName, pdfPath))
         == Some(GsCall(gsCmd, Device(os), if TruthyString(printerName) then printerName else None, pdfPath))
  {
    var argv := GhostscriptArgv(os, gsCmd, printerName, pdfPath);
    assert argv[5][..|DevicePrefix|] == DevicePrefix;
    assert argv[5][|DevicePrefix|..] == Device(os);
    assert argv[|argv| - 3] == PrintedFlag && argv[|argv| - 2] == FileFlag;
    if TruthyString(printerName) {
      var flag := OutputFileFlag(printerName.value);
      assert flag[..|OutputPrefix|] == OutputPrefix;
      assert flag[|OutputPrefix|..|flag| - 1] == printerName.value;
    }
  }

  /** The output-file flag stands right after the device exactly when a truthy printer name is given. */
  lemma OutputFlagIffPrinter(os: string, gsCmd: string, printerName: Option<string>, pdfPath: string)
    ensures IsOutputFileFlag(GhostscriptArgv(os, gsCmd, printerName, pdfPath)[6]) <==> TruthyString(printerName)
  {
    var argv := GhostscriptArgv(os, gsCmd, printerName, pdfPath);
    if TruthyString(printerName) {
      assert OutputFileFlag(printerName.value)[..|OutputPrefix|] == OutputPrefix;
    } else {
      assert argv[6] == PrintedFlag;
    }
  }
}

=== FILE: gui.dfy ===
/**
 * The main window's document handling: which file and page are open, the
 * selection drawn on the page image, and the buttons that act on them.
 *
 * An exception that escapes a button handler is reported by the event loop,
 * which keeps running with whatever state the handler reached; `Handled`
 * records that state together with the exception.
 */
module Gui {
  import opened Wrappers
  import opened Geometry
  import Pdf
  import opened Selection
  import Printing

  datatype Fault =
    | PageIndexError        // the file has no page under the cursor
    | NoPageAttributeError  // a page method called while no page is loaded

  /** The open file, the page being edited, and the completed selection drag. */
  datatype MainWindow = MainWindow(pdf: Option<Pdf.Doc>, page: Option<Pdf.Page>, rect: Option<Drag>)

  /** The state a handler leaves behind and the exception it raised, if any. */
  datatype Handled = Handled(window: MainWindow, raised: Option<Fault>)

  /** What the save button did. */
  datatype SaveResult =
    | SaveFault(fault: Fault)              // no page loaded
    | NothingToSave(page: Pdf.Page)        // the page is unchanged: no prompt
    | SaveCancelled(page: Pdf.Page)        // the save prompt was dismissed
    | SaveAs(path: string, page: Pdf.Page) // written to `path`, which is then reopened
  {
    predicate Prompted() {
      SaveCancelled? || SaveAs?
    }
  }

  /** The save button's result and the window it leaves behind. */
  datatype SaveStep = SaveStep(window: MainWindow, result: SaveResult)

  /** An open file always has its current page loaded, and the cursor names a page of it. */
  predicate Consistent(w: MainWindow) {
    w.pdf.Some? ==> Pdf.CursorValid(w.pdf.value) && w.page.Some?
  }

  // ---------------------------------------------------------------------------
  // Loading and showing pages

  /** Takes the cursor's page from the file into the window, if a file is open. */
  function LoadPage(w: MainWindow, render: Pdf.Renderer): (h: Handled)
    ensures w.pdf.None? ==> h == Handled(w, None)
    ensures h.window.pdf == w.pdf && h.window.rect == w.rect
    ensures w.pdf.Some? ==> (h.raised.Some? <==> !Pdf.CursorValid(w.pdf.value))
    ensures h.raised.Some? ==> h.window == w
    ensures w.pdf.Some? && Pdf.CursorValid(w.pdf.value) ==> h.window.page == Pdf.CurrentPage(w.pdf.value, render)
  {
    if w.pdf.None? then Handled(w, None)
    else
      match Pdf.CurrentPage(w.pdf.value, render)
      case None => Handled(w, Some(PageIndexError))
      case Some(p) => Handled(w.(page := Some(p)), None)
  }

  /** Showing the page reads its bytes, which refreshes the cache of a changed page. */
  function DisplayPage(w: MainWindow, render: Pdf.Renderer): (v: MainWindow)
    ensures v.pdf == w.pdf && v.rect == w.rect && (v.page.Some? <==> w.page.Some?)
    ensures w.page.Some? ==>
              && v.page.value.mbox == w.page.value.mbox
              && v.page.value.orig == w.page.value.orig
              && v.page.value.rotation == w.page.value.rotation
    ensures w.page.Some? && Pdf.IsChanged(w.page.value) ==>
              v.page.value.cache == render(w.page.value.mbox, w.page.value.rotation)
    ensures w.page.Some? && !Pdf.IsChanged(w.page.value) ==> v == w
  {
    if w.page.None? then w else w.(page := Some(Pdf.GetBytes(w.page.value, render).page))
  }

  /** Installs `d` as the open file, then loads and shows its current page. */
  function Reload(w: MainWindow, d: Pdf.Doc, render: Pdf.Renderer): (h: Handled)
    ensures h.window.pdf == Some(d) && h.window.rect == w.rect
    ensures h.raised.None? <==> Pdf.CursorValid(d)
    ensures Pdf.CursorValid(d) ==> h.window.page == Pdf.CurrentPage(d, render)
    ensures !Pdf.CursorValid(d) ==> h.window.page == w.page
  {
    var loaded := LoadPage(w.(pdf := Some(d)), render);
    if loaded.raised.Some? then loaded
    else
      var p := loaded.window.page.value;
      Pdf.FreshPageReadsInitialRender(p.orig, render);
      Handled(DisplayPage(loaded.window, render), None)
  }

  // ---------------------------------------------------------------------------
  // Button handlers

  /** Opens the file at `path` holding pages with media boxes `boxes`; an empty path is a dismissed dialog. */
  function OpenPdf(w: MainWindow, path: string, boxes: seq<Box>, render: Pdf.Renderer): (h: Handled)
    ensures path == "" ==> h == Handled(w, None)
    ensures path != "" ==> h.window.pdf == Some(Pdf.OpenDoc(path, boxes)) && h.window.rect == None
    ensures path != "" ==> (h.raised.None? <==> |boxes| >= 1)
    ensures path != "" && |boxes| >= 1 ==>
              && Consistent(h.window)
              && h.window.page.value.orig == boxes[0]
              && !Pdf.IsChanged(h.window.page.value)
    ensures path != "" && |boxes| >= 1 ==> h.window.page == Pdf.CurrentPage(Pdf.OpenDoc(path, boxes), render)
    ensures path != "" && |boxes| == 0 ==> h.window.page == w.page
  {
    if path == "" then Handled(w, None)
    else Reload(w.(rect := None), Pdf.OpenDoc(path, boxes), render)
  }

  /**
   * A navigation button: without an open file nothing happens; otherwise the
   * cursor moves and the page under it is reloaded fresh from the file.
   */
  function Navigate(w: MainWindow, m: Pdf.Nav, render: Pdf.Renderer): (h: Handled)
    ensures w.pdf.None? ==> h == Handled(w, None)
    ensures w.pdf.Some? ==> h.window.pdf == Some(Pdf.Step(w.pdf.value, m)) && h.window.rect == w.rect
    ensures Consistent(w) ==> Consistent(h.window) && h.raised.None?
    ensures Consistent(w) && w.pdf.Some? ==>
              h.window.page.value.orig == w.pdf.value.boxes[h.window.pdf.value.cursor]
              && !Pdf.IsChanged(h.window.page.value)
    ensures Consistent(w) && w.pdf.Some? ==> h.window.page == Pdf.CurrentPage(h.window.pdf.value, render)
  {
    if w.pdf.None? then Handled(w, None)
    else Reload(w, Pdf.Step(w.pdf.value, m), render)
  }

  /** The previous-page button. */
  function PrevPage(w: MainWindow, render: Pdf.Renderer): (h: Handled)
    ensures w.pdf.None? ==> h == Handled(w, None)
    ensures w.pdf.Some? ==> h.window.pdf == Some(Pdf.PrevPage(w.pdf.value)) && h.window.rect == w.rect
    ensures Consistent(w) && w.pdf.Some? ==>
              h.raised.None? && h.window.page == Pdf.CurrentPage(Pdf.PrevPage(w.pdf.value), render)
  {
    Navigate(w, Pdf.NavPrev, render)
  }

  /** The next-page button. */
  function NextPage(w: MainWindow, render: Pdf.Renderer): (h: Handled)
    ensures w.pdf.None? ==> h == Handled(w, None)
    ensures w.pdf.Some? ==> h.window.pdf == Some(Pdf.NextPage(w.pdf.value)) && h.window.rect == w.rect
    ensures Consistent(w) && w.pdf.Some? ==>
              h.raised.None? && h.window.page == Pdf.CurrentPage(Pdf.NextPage(w.pdf.value), render)
  {
    Navigate(w, Pdf.NavNext, render)
  }

  /** Without a page nothing happens; otherwise the page turns left and is shown again. */
  function RotateLeft(w: MainWindow, reorient: Pdf.Reorient, render: Pdf.Renderer): (v: MainWindow)
    ensures w.page.None? ==> v == w
    ensures v.pdf == w.pdf && v.rect == w.rect && (v.page.Some? <==> w.page.Some?)
    ensures w.page.Some? ==>
              && v.page.value.rotation == w.page.value.rotation - 90
              && v.page.value.orig == w.page.value.orig
              && v.page.value.mbox == reorient(w.page.value.mbox, 270)
    ensures Consistent(w) ==> Consistent(v)
  {
    if w.page.None? then w
    else DisplayPage(w.(page := Some(Pdf.RotateLeft(w.page.value, reorient))), render)
  }

  /** Without a page nothing happens; otherwise the page turns right and is shown again. */
  function RotateRight(w: MainWindow, reorient: Pdf.Reorient, render: Pdf.Renderer): (v: MainWindow)
    ensures w.page.None? ==> v == w
    ensures v.pdf == w.pdf && v.rect == w.rect && (v.page.Some? <==> w.page.Some?)
    ensures w.page.Some? ==>
              && v.page.value.rotation == w.page.value.rotation + 90
              && v.page.value.orig == w.page.value.orig
              && v.page.value.mbox == reorient(w.page.value.mbox, 90)
    ensures Consistent(w) ==> Consistent(v)
  {
    if w.page.None? then w
    else DisplayPage(w.(page := Some(Pdf.RotateRight(w.page.value, reorient))), render)
  }

  /** The save button's crop step as written: the selection mapped with the page's size, measured from the origin. */
  function CropToSelection(p: Pdf.Page, rect: Option<Drag>, imageW: real, imageH: real): (q: Pdf.Page)
    requires rect.Some? ==> imageW != 0.0 && imageH != 0.0
    ensures q.orig == p.orig && q.rotation == p.rotation && q.cache == p.cache
    ensures rect.None? ==> q == p
    ensures rect.Some? ==>
              && q.mbox == SelectionToBox(rect.value, imageW, imageH, Pdf.GetSize(p).0, Pdf.GetSize(p).1)
              && q.mbox.WellFormed()
  {
    if rect.None? then p
    else
      var size := Pdf.GetSize(p);
      var b := SelectionToBox(rect.value, imageW, imageH, size.0, size.1);
      Pdf.Crop(p, b.top, b.bottom, b.left, b.right)
  }

  /** The crop step with the transform corrected to measure from the media box's lower-left corner. */
  function CropToSelectionCorrected(p: Pdf.Page, rect: Option<Drag>, imageW: real, imageH: real): (q: Pdf.Page)
    requires rect.Some? ==> imageW != 0.0 && imageH != 0.0
    ensures q.orig == p.orig && q.rotation == p.rotation && q.cache == p.cache
    ensures rect.None? ==> q == p
    ensures rect.Some? ==> q.mbox == SelectionToPageBox(rect.value, imageW, imageH, p.mbox) && q.mbox.WellFormed()
  {
    if rect.None? then p
    else
      var b := SelectionToPageBox(rect.value, imageW, imageH, p.mbox);
      Pdf.Crop(p, b.top, b.bottom, b.left, b.right)
  }

  /**
   * The save button after its crop step produced `page`: prompt only for a
   * changed page; `chosen` is the prompt's answer, empty when dismissed. A
   * chosen file is written and reopened; the written file holds the one page
   * with its current media box. Otherwise the cropped page stays in the
   * window and the selection stays drawn.
   */
  function SaveDecision(w: MainWindow, page: Pdf.Page, chosen: string, render: Pdf.Renderer): (s: SaveStep)
    ensures !s.result.SaveFault? && s.result.page == page
    ensures s.result.Prompted() <==> Pdf.IsChanged(page)
    ensures s.result.SaveAs? <==> Pdf.IsChanged(page) && chosen != ""
    ensures !s.result.SaveAs? ==> s.window == w.(page := Some(page))
    ensures s.result.SaveAs? ==>
              && s.result.path == chosen
              && s.window.pdf == Some(Pdf.OpenDoc(chosen, [page.mbox]))
              && s.window.rect == None
              && Consistent(s.window)
              && s.window.page.value.orig == page.mbox
              && !Pdf.IsChanged(s.window.page.value)
    ensures s.result.SaveAs? ==> s.window.page == Pdf.CurrentPage(Pdf.OpenDoc(chosen, [page.mbox]), render)
  {
    if !Pdf.IsChanged(page) then SaveStep(w.(page := Some(page)), NothingToSave(page))
    else if chosen == "" then SaveStep(w.(page := Some(page)), SaveCancelled(page))
    else
      var reopened := OpenPdf(w.(page := Some(page)), chosen, [page.mbox], render);
      SaveStep(reopened.window, SaveAs(chosen, page))
  }

  /**
   * The save button as written: with no page loaded it faults; otherwise it
   * crops the page in place when a selection is drawn and then decides as
   * `SaveDecision` does. The image is `imageW` by `imageH` pixels.
   */
  function SaveSelection(w: MainWindow, imageW: real, imageH: real, chosen: string, render: Pdf.Renderer): (s: SaveStep)
    requires w.page.Some? && w.rect.Some? ==> imageW != 0.0 && imageH != 0.0
    ensures w.page.None? ==> s == SaveStep(w, SaveFault(NoPageAttributeError))
    ensures w.page.Some? ==> s == SaveDecision(w, CropToSelection(w.page.value, w.rect, imageW, imageH), chosen, render)
    ensures w.page.Some? ==>
              (s.result.Prompted() <==> Pdf.IsChanged(CropToSelection(w.page.value, w.rect, imageW, imageH)))
    ensures w.page.Some? && !s.result.SaveAs? ==>
              s.window.rect == w.rect && s.window.page == Some(CropToSelection(w.page.value, w.rect, imageW, imageH))
  {
    if w.page.None? then SaveStep(w, SaveFault(NoPageAttributeError))
    else SaveDecision(w, CropToSelection(w.page.value, w.rect, imageW, imageH), chosen, render)
  }

  /** The save button with the corrected crop step. */
  function SaveSelectionCorrected(w: MainWindow, imageW: real, imageH: real, chosen: string, render: Pdf.Renderer): (s: SaveStep)
    requires w.page.Some? && w.rect.Some? ==> imageW != 0.0 && imageH != 0.0
    ensures w.page.None? ==> s == SaveStep(w, SaveFault(NoPageAttributeError))
    ensures w.page.Some? ==>
              s == SaveDecision(w, CropToSelectionCorrected(w.page.value, w.rect, imageW, imageH), chosen, render)
    ensures w.page.Some? ==>
              (s.result.Prompted() <==> Pdf.IsChanged(CropToSelectionCorrected(w.page.value, w.rect, imageW, imageH)))
  {
    if w.page.None? then SaveStep(w, SaveFault(NoPageAttributeError))
    else SaveDecision(w, CropToSelectionCorrected(w.page.value, w.rect, imageW, imageH), chosen, render)
  }

  /** The clear-crop button: forgets the selection, so the next save crops nothing. */
  function ClearRect(w: MainWindow): (v: MainWindow)
    ensures v.rect == None && v.pdf == w.pdf && v.page == w.page
  {
    w.(rect := None)
  }

  /** The print button prints the open file by path; it never hands over page bytes. */
  function PrintPage(w: MainWindow, env: Printing.Env): (r: Option<Printing.Dispatch>)
    ensures r.Some? <==> w.pdf.Some?
    ensures w.pdf.Some? ==> r == Some(Printing.PrintPdf(env, w.pdf.value.path, None))
    ensures r.Some? ==> forall i :: 0 <= i < |r.value.tried| ==> !r.value.tried[i].NativeSpool?
  {
    if w.pdf.None? then None
    else
      var d := Printing.PrintPdf(env, w.pdf.value.path, None);
      Printing.NativeOnlyWithData(env, w.pdf.value.path, None);
      Some(d)
  }

  // ---------------------------------------------------------------------------
  // Properties of the handlers

  /** An unmodified page with no selection prompts for nothing and is left as it was. */
  lemma UnmodifiedPageSavesNothing(w: MainWindow, imageW: real, imageH: real, chosen: string, render: Pdf.Renderer)
    requires w.page.Some? && w.rect.None? && !Pdf.IsChanged(w.page.value)
    ensures SaveSelection(w, imageW, imageH, chosen, render) == SaveStep(w, NothingToSave(w.page.value))
  {
  }

  /** After the clear-crop button, saving leaves the page's box as it was. */
  lemma ClearedSelectionCropsNothing(w: MainWindow, imageW: real, imageH: real, chosen: string, render: Pdf.Renderer)
    requires w.page.Some?
    ensures SaveSelection(ClearRect(w), imageW, imageH, chosen, render).result.page == w.page.value
  {
  }

  /**
   * Pressing save again without a new drag crops the already cropped page
   * once more, mapping the same selection against its new size.
   */
  lemma SecondPressRecrops(w: MainWindow, imageW: real, imageH: real, render: Pdf.Renderer)
    requires w.page.Some? && w.rect.Some? && imageW != 0.0 && imageH != 0.0
    ensures var first := SaveSelection(w, imageW, imageH, "", render);
            var again := CropToSelection(CropToSelection(w.page.value, w.rect, imageW, imageH), w.rect, imageW, imageH);
            SaveSelection(first.window, imageW, imageH, "", render).result.page == again
  {
  }

  /**
   * As written, on a page whose box and snapshot are [100, 300] x [100, 300],
   * selecting the whole 200 x 200 image crops to [0, 200] x [0, 200] and
   * prompts to save, where the corrected handler sees an unchanged page.
   */
  lemma SaveOffsetPrompts(cache: Bytes, render: Pdf.Renderer)
    ensures var mbox := Box(100.0, 100.0, 300.0, 300.0);
            var w := MainWindow(None, Some(Pdf.Page(mbox, mbox, 0, cache)), Some(Drag(0.0, 0.0, 200.0, 200.0)));
            && SaveSelection(w, 200.0, 200.0, "", render).result
               == SaveCancelled(Pdf.Page(Box(0.0, 0.0, 200.0, 200.0), mbox, 0, cache))
            && SaveSelectionCorrected(w, 200.0, 200.0, "", render).result
               == NothingToSave(Pdf.Page(mbox, mbox, 0, cache))
  {
    var mbox := Box(100.0, 100.0, 300.0, 300.0);
    WholeImageSelectsPage(200.0, 200.0, mbox);
  }

  /** With the correction, a selection drawn on the image crops to a well-formed box inside the page's media box. */
  lemma SaveCropsWithinPage(w: MainWindow, imageW: real, imageH: real, chosen: string, render: Pdf.Renderer)
    requires w.page.Some? && w.rect.Some? && w.page.value.mbox.WellFormed()
    requires 0.0 < imageW && 0.0 < imageH && OnImage(w.rect.value, imageW, imageH)
    ensures var r := SaveSelectionCorrected(w, imageW, imageH, chosen, render).result;
            r.page.mbox.WellFormed() && w.page.value.mbox.Contains(r.page.mbox)
  {
    PageSelectionWithinBox(w.rect.value, imageW, imageH, w.page.value.mbox);
  }

  /** On a page whose media box starts at the origin the corrected and as-written handlers agree. */
  lemma SaveSelectionAtOrigin(w: MainWindow, imageW: real, imageH: real, chosen: string, render: Pdf.Renderer)
    requires w.page.Some? && w.rect.Some? && imageW != 0.0 && imageH != 0.0
    requires w.page.value.mbox.left == 0.0 && w.page.value.mbox.bottom == 0.0
    ensures SaveSelectionCorrected(w, imageW, imageH, chosen, render) == SaveSelection(w, imageW, imageH, chosen, render)
  {
    PageBoxAgreesAtOrigin(w.rect.value, imageW, imageH, w.page.value.mbox);
    assert CropToSelectionCorrected(w.page.value, w.rect, imageW, imageH)
        == CropToSelection(w.page.value, w.rect, imageW, imageH);
  }

  /** Presses the navigation buttons in order, stopping at the first exception. */
  function Press(w: MainWindow, moves: seq<Pdf.Nav>, render: Pdf.Renderer): Handled
    decreases |moves|
  {
    if moves == [] then Handled(w, None)
    else
      var h := Navigate(w, moves[0], render);
      if h.raised.Some? then h else Press(h.window, moves[1..], render)
  }

  /** Navigating and turning never fault on a consistent window, and keep it consistent. */
  lemma {:induction false} HandlersKeepConsistent(w: MainWindow, reorient: Pdf.Reorient, render: Pdf.Renderer,
                                                  moves: seq<Pdf.Nav>)
    requires Consistent(w)
    ensures Consistent(Press(w, moves, render).window) && Press(w, moves, render).raised.None?
    ensures Consistent(RotateLeft(w, reorient, render)) && Consistent(RotateRight(w, reorient, render))
    decreases |moves|
  {
    if moves != [] {
      HandlersKeepConsistent(Navigate(w, moves[0], render).window, reorient, render, moves[1..]);
    }
  }

  /** With no file open the navigation buttons do nothing, and with no page the turn buttons do nothing. */
  lemma GuardsWithoutDocument(w: MainWindow, reorient: Pdf.Reorient, render: Pdf.Renderer)
    ensures w.pdf.None? ==> PrevPage(w, render) == Handled(w, None) && NextPage(w, render) == Handled(w, None)
    ensures w.page.None? ==> RotateLeft(w, reorient, render) == w && RotateRight(w, reorient, render) == w
  {
  }
}

=== FILE: pdf.dfy ===
/**
 * An open PDF file with its page cursor, and one page of it held for editing:
 * media box, original media box, rotation counter and cached rendering.
 *
 * The PDF library is not part of this model. What it contributes enters as
 * parameters: `render` is what its writer serialises for a page state, and
 * `reorient` is what moving a rotation into the page content does to the
 * media box.
 */
module Pdf {
  import opened Wrappers
  import opened Geometry

  /** The serialised single-page document for a media box and rotation counter. */
  type Renderer = (Box, int) -> Bytes

  /** The media box after the page is turned by the given degrees and the turn is moved into its content. */
  type Reorient = (Box, int) -> Box

  /** A page held for editing; `orig` is the media box captured when the page was taken from the file. */
  datatype Page = Page(mbox: Box, orig: Box, rotation: int, cache: Bytes)

  /** What reading a page's bytes returns, and the page it leaves behind. */
  datatype Read = Read(bytes: Bytes, page: Page)

  datatype Turn = TurnLeft | TurnRight

  /** An open file: its path, the media box of every page, and the current page index. */
  datatype Doc = Doc(path: string, boxes: seq<Box>, cursor: nat)

  datatype Nav = NavNext | NavPrev

  // ---------------------------------------------------------------------------
  // Pages

  /** Takes a page out of the file: its box is snapshotted and it is rendered once. */
  function NewPage(mbox: Box, render: Renderer): (p: Page)
    ensures !IsChanged(p)
    ensures p.mbox == mbox && p.orig == mbox && p.rotation == 0
    ensures p.cache == render(p.mbox, p.rotation)
  {
    Page(mbox, mbox, 0, render(mbox, 0))
  }

  /**
   * The page differs from the file: a rotation that is not a whole turn, or
   * a media box other than the snapshot. Python's `%` by a positive modulus
   * is never negative, as Dafny's is.
   */
  predicate IsChanged(p: Page) {
    p.rotation % 360 != 0 || p.mbox != p.orig
  }

  /** Sets the four edges as given; edge order is not checked. */
  function Crop(p: Page, top: real, bottom: real, left: real, right: real): (q: Page)
    ensures q.mbox.top == top && q.mbox.bottom == bottom
    ensures q.mbox.left == left && q.mbox.right == right
    ensures q.rotation == p.rotation && q.orig == p.orig && q.cache == p.cache
    ensures IsChanged(q) <==> p.rotation % 360 != 0 || q.mbox != p.orig
  {
    p.(mbox := Box(left, bottom, right, top))
  }

  /** Width and height of the current media box. */
  function GetSize(p: Page): (size: (real, real))
    ensures 0.0 <= size.0 && 0.0 <= size.1 <==> p.mbox.WellFormed()
  {
    (p.mbox.Width(), p.mbox.Height())
  }

  /** A left turn: the counter drops by 90 and the library turns the page by 270 degrees. */
  function RotateLeft(p: Page, reorient: Reorient): (q: Page)
    ensures q.rotation == p.rotation - 90
    ensures q.orig == p.orig && q.cache == p.cache
    ensures q.mbox == reorient(p.mbox, 270)
  {
    p.(mbox := reorient(p.mbox, 270), rotation := p.rotation - 90)
  }

  /** A right turn: the counter rises by 90 and the library turns the page by 90 degrees. */
  function RotateRight(p: Page, reorient: Reorient): (q: Page)
    ensures q.rotation == p.rotation + 90
    ensures q.orig == p.orig && q.cache == p.cache
    ensures q.mbox == reorient(p.mbox, 90)
  {
    p.(mbox := reorient(p.mbox, 90), rotation := p.rotation + 90)
  }

  function Rotate(p: Page, t: Turn, reorient: Reorient): Page {
    match t
    case TurnLeft => RotateLeft(p, reorient)
    case TurnRight => RotateRight(p, reorient)
  }

  /** Applies the turns first to last. */
  function RotateAll(p: Page, turns: seq<Turn>, reorient: Reorient): Page
    decreases |turns|
  {
    if turns == [] then p else RotateAll(Rotate(p, turns[0], reorient), turns[1..], reorient)
  }

  function CountTurns(turns: seq<Turn>, t: Turn): nat {
    if turns == [] then 0
    else (if turns[0] == t then 1 else 0) + CountTurns(turns[1..], t)
  }

  /**
   * The page's bytes: re-rendered (and the cache replaced) whenever the page
   * is changed, the stored cache otherwise.
   */
  function GetBytes(p: Page, render: Renderer): (r: Read)
    ensures r.page.mbox == p.mbox && r.page.orig == p.orig && r.page.rotation == p.rotation
    ensures r.bytes == r.page.cache
    ensures IsChanged(p) ==> r.bytes == render(p.mbox, p.rotation)
    ensures !IsChanged(p) ==> r.page == p
  {
    if IsChanged(p) then
      var bytes := render(p.mbox, p.rotation);
      Read(bytes, p.(cache := bytes))
    else
      Read(p.cache, p)
  }

  // ---------------------------------------------------------------------------
  // Page lemmas

  /** Cropping back to the snapshot undoes a crop exactly when no partial turn is pending. */
  lemma CropChangedIff(p: Page, top: real, bottom: real, left: real, right: real)
    ensures IsChanged(Crop(p, top, bottom, left, right))
        <==> p.rotation % 360 != 0 || Box(left, bottom, right, top) != p.orig
    ensures p.rotation % 360 == 0 ==>
              !IsChanged(Crop(p, p.orig.top, p.orig.bottom, p.orig.left, p.orig.right))
  {
  }

  /** The size after a crop is the span of the given edges. */
  lemma CropSize(p: Page, top: real, bottom: real, left: real, right: real)
    ensures GetSize(Crop(p, top, bottom, left, right)) == (right - left, top - bottom)
  {
  }

  /** A later crop replaces an earlier one entirely. */
  lemma CropLastWins(p: Page, t1: real, b1: real, l1: real, r1: real, t2: real, b2: real, l2: real, r2: real)
    ensures Crop(Crop(p, t1, b1, l1, r1), t2, b2, l2, r2) == Crop(p, t2, b2, l2, r2)
  {
  }

  /** Opposite turns cancel on the counter, and leave the snapshot and cache alone. */
  lemma OppositeTurnsCancel(p: Page, reorient: Reorient)
    ensures RotateRight(RotateLeft(p, reorient), reorient).rotation == p.rotation
    ensures RotateLeft(RotateRight(p, reorient), reorient).rotation == p.rotation
    ensures RotateRight(RotateLeft(p, reorient), reorient).orig == p.orig
    ensures RotateLeft(RotateRight(p, reorient), reorient).cache == p.cache
    ensures RotateRight(RotateLeft(p, reorient), reorient).cache == p.cache
    ensures RotateLeft(RotateRight(p, reorient), reorient).orig == p.orig
  {
  }

  /** A quarter turn from a whole-turn counter always marks the page changed, whatever the box. */
  lemma QuarterTurnChanges(p: Page, reorient: Reorient)
    requires p.rotation % 360 == 0
    ensures IsChanged(RotateLeft(p, reorient)) && IsChanged(RotateRight(p, reorient))
  {
  }

  /** After any sequence of turns the counter moved by 90 per right turn and -90 per left turn. */
  lemma {:induction false} RotateAllCounter(p: Page, turns: seq<Turn>, reorient: Reorient)
    ensures RotateAll(p, turns, reorient).rotation
         == p.rotation + 90 * (CountTurns(turns, TurnRight) - CountTurns(turns, TurnLeft))
    ensures RotateAll(p, turns, reorient).orig == p.orig
    ensures RotateAll(p, turns, reorient).cache == p.cache
    decreases |turns|
  {
    if turns != [] {
      RotateAllCounter(Rotate(p, turns[0], reorient), turns[1..], reorient);
    }
  }

  /** Four turns the same way bring the counter back to the same residue mod 360; from a fresh page, to 0. */
  lemma FourTurnsWhole(p: Page, t: Turn, reorient: Reorient)
    ensures RotateAll(p, [t, t, t, t], reorient).rotation % 360 == p.rotation % 360
    ensures p.rotation == 0 ==> RotateAll(p, [t, t, t, t], reorient).rotation % 360 == 0
  {
    RotateAllCounter(p, [t, t, t, t], reorient);
    var other := if t == TurnLeft then TurnRight else TurnLeft;
    assert [t, t, t, t][1..] == [t, t, t];
    assert [t, t, t][1..] == [t, t];
    assert [t, t][1..] == [t];
    assert [t][1..] == [];
    assert CountTurns([t], t) == 1 && CountTurns([t], other) == 0;
    assert CountTurns([t, t], t) == 2 && CountTurns([t, t], other) == 0;
    assert CountTurns([t, t, t], t) == 3 && CountTurns([t, t, t], other) == 0;
    assert CountTurns([t, t, t, t], t) == 4 && CountTurns([t, t, t, t], other) == 0;
  }

  /** Reading twice gives the same bytes and the same page as reading once. */
  lemma GetBytesStable(p: Page, render: Renderer)
    ensures GetBytes(GetBytes(p, render).page, render) == GetBytes(p, render)
  {
  }

  /** A page never edited since it was taken from the file reads as its first rendering. */
  lemma FreshPageReadsInitialRender(mbox: Box, render: Renderer)
    ensures GetBytes(NewPage(mbox, render), render).bytes == render(mbox, 0)
    ensures GetBytes(NewPage(mbox, render), render).page == NewPage(mbox, render)
  {
  }

  // ---------------------------------------------------------------------------
  // Documents and the page cursor

  function OpenDoc(path: string, boxes: seq<Box>): Doc {
    Doc(path, boxes, 0)
  }

  function PageCount(d: Doc): nat {
    |d.boxes|
  }

  /** The cursor names a page of the file. */
  predicate CursorValid(d: Doc) {
    d.cursor < PageCount(d)
  }

  /** Advances the cursor unless it is already at or past the last page. */
  function NextPage(d: Doc): (e: Doc)
    ensures e.path == d.path && e.boxes == d.boxes
    ensures e.cursor == d.cursor + 1 || e.cursor == d.cursor
    ensures e.cursor != d.cursor <==> d.cursor < PageCount(d) - 1
    ensures CursorValid(d) ==> CursorValid(e)
  {
    if d.cursor < PageCount(d) - 1 then d.(cursor := d.cursor + 1) else d
  }

  /** Moves the cursor back unless it is already at page 0. */
  function PrevPage(d: Doc): (e: Doc)
    ensures e.path == d.path && e.boxes == d.boxes
    ensures e.cursor + 1 == d.cursor || e.cursor == d.cursor
    ensures e.cursor != d.cursor <==> d.cursor > 0
    ensures CursorValid(d) ==> CursorValid(e)
  {
    if d.cursor > 0 then d.(cursor := d.cursor - 1) else d
  }

  /** The page under the cursor, freshly taken from the file; `None` is the library's index error. */
  function CurrentPage(d: Doc, render: Renderer): (r: Option<Page>)
    ensures r.Some? <==> CursorValid(d)
    ensures r.Some? ==> r.value.orig == d.boxes[d.cursor] && r.value.mbox == r.value.orig
    ensures r.Some? ==> !IsChanged(r.value)
    ensures r.Some? ==> r.value.rotation == 0 && r.value.cache == render(d.boxes[d.cursor], 0)
  {
    if d.cursor < |d.boxes| then Some(NewPage(d.boxes[d.cursor], render)) else None
  }

  function Step(d: Doc, m: Nav): Doc {
    match m
    case NavNext => NextPage(d)
    case NavPrev => PrevPage(d)
  }

  /** Applies the moves first to last. */
  function Navigate(d: Doc, moves: seq<Nav>): Doc
    decreases |moves|
  {
    if moves == [] then d else Navigate(Step(d, moves[0]), moves[1..])
  }

  /** No sequence of moves takes a valid cursor out of range or changes the file. */
  lemma {:induction false} NavigateKeepsValid(d: Doc, moves: seq<Nav>)
    requires CursorValid(d)
    ensures CursorValid(Navigate(d, moves))
    ensures Navigate(d, moves).path == d.path && Navigate(d, moves).boxes == d.boxes
    decreases |moves|
  {
    if moves != [] {
      NavigateKeepsValid(Step(d, moves[0]), moves[1..]);
    }
  }

  /** Next at the last page and prev at page 0 change nothing, so repeating them is idempotent. */
  lemma NavigationSaturates(d: Doc)
    ensures PageCount(d) >= 1 && d.cursor == PageCount(d) - 1 ==> NextPage(d) == d
    ensures d.cursor == 0 ==> PrevPage(d) == d
  {
  }

  /** Away from the ends, next and prev undo each other. */
  lemma NextPrevInverse(d: Doc)
    ensures d.cursor < PageCount(d) - 1 ==> PrevPage(NextPage(d)) == d
    ensures 0 < d.cursor < PageCount(d) ==> NextPage(PrevPage(d)) == d
  {
  }

  function Repeat(m: Nav, n: nat): (moves: seq<Nav>)
    ensures |moves| == n
  {
    if n == 0 then [] else [m] + Repeat(m, n - 1)
  }

  /** n presses of next land on page min(cursor + n, last); there is no wrap-around. */
  lemma {:induction false} NextRepeated(d: Doc, n: nat)
    requires CursorValid(d)
    ensures Navigate(d, Repeat(NavNext, n)).cursor
         == if d.cursor + n < PageCount(d) - 1 then d.cursor + n else PageCount(d) - 1
    decreases n
  {
    if n > 0 {
      assert Repeat(NavNext, n)[0] == NavNext;
      assert Repeat(NavNext, n)[1..] == Repeat(NavNext, n - 1);
      NextRepeated(NextPage(d), n - 1);
    }
  }

  /** n presses of prev land on page max(cursor - n, 0). */
  lemma {:induction false} PrevRepeated(d: Doc, n: nat)
    ensures Navigate(d, Repeat(NavPrev, n)).cursor == if d.cursor >= n then d.cursor - n else 0
    decreases n
  {
    if n > 0 {
      assert Repeat(NavPrev, n)[0] == NavPrev;
      assert Repeat(NavPrev, n)[1..] == Repeat(NavPrev, n - 1);
      PrevRepeated(PrevPage(d), n - 1);
    }
  }
}

=== FILE: platform.dfy ===
/** The operating system as `platform.system()` names it. */
module Platform {

  const Linux := "Linux"
  const Darwin := "Darwin"
  const Windows := "Windows"

  predicate IsWin(os: string) {
    os == Windows
  }

  /** The systems the print fallback knows how to reach. */
  predicate KnownOs(os: string) {
    os == Linux || os == Darwin || os == Windows
  }
}

=== FILE: printing.dfy ===
/**
 * The print dispatcher: check the file, then try native printing, then
 * Ghostscript, then the operating system's own print command, stopping at
 * the first that succeeds.
 *
 * Whatever the environment would answer enters as `Env`: whether the path
 * is a file, what the search-path lookup finds, and whether each strategy
 * completes without raising.
 */
module Printing {
  import opened Wrappers
  import opened Platform
  import opened Ghostscript

  /** Where raw page bytes go: a CUPS job, the Windows raw spooler, or nowhere. */
  datatype NativeRoute = CupsJob | WinRawSpool | NoNativeRoute

  datatype Env = Env(
    os: string,
    isFile: string -> bool,
    which: Which,
    nativeOk: bool,    // choosing the printer and submitting the bytes complete without raising
    gsOk: bool,        // the Ghostscript subprocess exits with status 0
    fallbackOk: bool)  // the OS print command completes without raising

  datatype Action =
    | NativeSpool(route: NativeRoute, data: Bytes)
    | GhostscriptRun(argv: seq<string>)
    | Startfile(path: string, verb: string)
    | RunLp(argv: seq<string>)
  {
    /** Position in the fallback order. */
    function Rank(): nat {
      match this
      case NativeSpool(_, _) => 0
      case GhostscriptRun(_) => 1
      case Startfile(_, _) => 2
      case RunLp(_) => 2
    }

    predicate IsOsFallback() {
      Startfile? || RunLp?
    }
  }

  datatype Outcome =
    | MissingFile(path: string)    // FileNotFoundError, before any strategy
    | Printed(via: Action)          // returned normally after `via` succeeded
    | Unsupported(os: string)      // NotImplementedError for an unknown system
    | Raised(via: Action)           // the OS fallback's own failure, propagated to the caller

  /** The strategies attempted, in order, and how the call ended. */
  datatype Dispatch = Dispatch(tried: seq<Action>, outcome: Outcome)

  /** Each strategy at most once, in fallback order. */
  predicate InFallbackOrder(tried: seq<Action>) {
    forall i, j :: 0 <= i < j < |tried| ==> tried[i].Rank() < tried[j].Rank()
  }

  // ---------------------------------------------------------------------------
  // The steps

  /** Where native printing sends bytes on each system; unknown systems have no route. */
  function NativeRouteFor(os: string): (r: NativeRoute)
    ensures r == CupsJob <==> os == Linux || os == Darwin
    ensures r == WinRawSpool <==> IsWin(os)
    ensures r == NoNativeRoute <==> !KnownOs(os)
  {
    if os == Linux || os == Darwin then CupsJob
    else if IsWin(os) then WinRawSpool
    else NoNativeRoute
  }

  /** Native printing returns normally: a route exists and the submission did not raise. */
  predicate NativeSucceeds(env: Env) {
    NativeRouteFor(env.os) != NoNativeRoute && env.nativeOk
  }

  /** The last resort: the shell's print verb on Windows, `lp` on Linux and macOS. */
  function OsFallback(os: string, path: string): (a: Action)
    ensures a.IsOsFallback()
    ensures a.Startfile? <==> IsWin(os)
  {
    if IsWin(os) then Startfile(path, "print") else RunLp(["lp", path])
  }

  /** The Ghostscript command line for printing the file, when a Ghostscript executable was found. */
  function GhostscriptAction(env: Env, path: string): (a: Option<Action>)
    ensures a.Some? <==> TruthyString(GhostscriptCmd(env.os, env.which))
    ensures a.Some? ==> a.value == GhostscriptRun(GhostscriptArgv(env.os, GhostscriptCmd(env.os, env.which).value, None, path))
  {
    var gscmd := GhostscriptCmd(env.os, env.which);
    if TruthyString(gscmd) then
      var argv := PrintGhostscript(env.os, path, gscmd, None, env.which);
      Some(GhostscriptRun(argv.value))
    else None
  }

  /** The dispatcher, step for step as `print_pdf` orders its checks. */
  function PrintPdf(env: Env, path: string, data: Option<Bytes>): (r: Dispatch)
    ensures r.outcome.MissingFile? <==> !env.isFile(path)
    ensures r.outcome.MissingFile? ==> r.tried == []
    ensures InFallbackOrder(r.tried)
    ensures r.outcome.Printed? || r.outcome.Raised? ==>
              r.tried != [] && r.outcome.via == r.tried[|r.tried| - 1]
    ensures r.outcome.Raised? ==> r.outcome.via.IsOsFallback()
    ensures r.outcome.Unsupported? ==> !KnownOs(env.os) && r.outcome.os == env.os
  {
    if !env.isFile(path) then Dispatch([], MissingFile(path))
    else
      var native := if TruthyBytes(data) then [NativeSpool(NativeRouteFor(env.os), data.value)] else [];
      if TruthyBytes(data) && NativeSucceeds(env) then Dispatch(native, Printed(native[0]))
      else
        var gs := GhostscriptAction(env, path);
        var viaGs := if gs.Some? then [gs.value] else [];
        if gs.Some? && env.gsOk then Dispatch(native + viaGs, Printed(gs.value))
        else if !KnownOs(env.os) then Dispatch(native + viaGs, Unsupported(env.os))
        else
          var last := OsFallback(env.os, path);
          Dispatch(native + viaGs + [last], if env.fallbackOk then Printed(last) else Raised(last))
  }

  // ---------------------------------------------------------------------------
  // Reference: the fallback chain as an explicit ordered list

  /** One entry of the chain: a strategy with whether it succeeds and whether its failure is caught, or a stop. */
  datatype Stage = Try(action: Action, succeeds: bool, caught: bool) | Halt(outcome: Outcome)

  /** The chain cannot run off its end: the last entry stops it whatever happens. */
  predicate EndsTerminal(stages: seq<Stage>) {
    stages != [] && (stages[|stages| - 1].Halt? || !stages[|stages| - 1].caught)
  }

  /** The strategies print_pdf would try for this environment, in order. */
  function Stages(env: Env, path: string, data: Option<Bytes>): (stages: seq<Stage>)
    ensures EndsTerminal(stages)
  {
    if !env.isFile(path) then [Halt(MissingFile(path))]
    else
      var gs := GhostscriptAction(env, path);
      (if TruthyBytes(data) then [Try(NativeSpool(NativeRouteFor(env.os), data.value), NativeSucceeds(env), true)] else [])
      + (if gs.Some? then [Try(gs.value, env.gsOk, true)] else [])
      + (if !KnownOs(env.os) then [Halt(Unsupported(env.os))] else [Try(OsFallback(env.os, path), env.fallbackOk, false)])
  }

  /** Runs the chain: the first success returns, a caught failure moves on, an uncaught one or a stop ends it. */
  function RunChain(stages: seq<Stage>): Dispatch
    requires EndsTerminal(stages)
    decreases |stages|
  {
    match stages[0]
    case Halt(o) => Dispatch([], o)
    case Try(a, ok, caught) =>
      if ok then Dispatch([a], Printed(a))
      else if !caught then Dispatch([a], Raised(a))
      else
        var rest := RunChain(stages[1..]);
        Dispatch([a] + rest.tried, rest.outcome)
  }

  /** The chain run as a loop over the list. */
  method Dispatcher(stages: seq<Stage>) returns (r: Dispatch)
    requires EndsTerminal(stages)
    ensures r == RunChain(stages)
  {
    var tried: seq<Action> := [];
    var i := 0;
    while true
      invariant 0 <= i < |stages|
      invariant EndsTerminal(stages[i..])
      invariant RunChain(stages) == Dispatch(tried + RunChain(stages[i..]).tried, RunChain(stages[i..]).outcome)
      decreases |stages| - i
    {
      match stages[i]
      case Halt(o) =>
        return Dispatch(tried, o);
      case Try(a, ok, caught) =>
        tried := tried + [a];
        if ok {
          return Dispatch(tried, Printed(a));
        }
        if !caught {
          return Dispatch(tried, Raised(a));
        }
        assert stages[i..][1..] == stages[i + 1..];
        i := i + 1;
    }
  }

  /** The nested checks of `print_pdf` and the ordered chain agree on every environment. */
  lemma PrintPdfIsChain(env: Env, path: string, data: Option<Bytes>)
    ensures PrintPdf(env, path, data) == RunChain(Stages(env, path, data))
  {
    if env.isFile(path) {
      var gs := GhostscriptAction(env, path);
      var nativeStages := if TruthyBytes(data) then [Try(NativeSpool(NativeRouteFor(env.os), data.value), NativeSucceeds(env), true)] else [];
      var gsStages := if gs.Some? then [Try(gs.value, env.gsOk, true)] else [];
      var tail := if !KnownOs(env.os) then [Halt(Unsupported(env.os))] else [Try(OsFallback(env.os, path), env.fallbackOk, false)];
      var stages := nativeStages + gsStages + tail;
      assert Stages(env, path, data) == stages;
      var afterNative := gsStages + tail;
      if gs.Some? {
        assert afterNative[1..] == tail;
        assert RunChain(afterNative) == (if env.gsOk then Dispatch([gs.value], Printed(gs.value))
                                         else Dispatch([gs.value] + RunChain(tail).tried, RunChain(tail).outcome));
      } else {
        assert afterNative == tail;
      }
      if TruthyBytes(data) {
        assert stages[1..] == afterNative;
      } else {
        assert stages == afterNative;
      }
    }
  }

  // ---------------------------------------------------------------------------
  // Properties of the dispatcher

  /** A missing file stops the dispatch before any strategy, and nothing else does. */
  lemma MissingFileFirst(env: Env, path: string, data: Option<Bytes>)
    ensures !env.isFile(path) <==> PrintPdf(env, path, data) == Dispatch([], MissingFile(path))
  {
  }

  /** Native printing is attempted exactly when the file exists and the bytes are non-empty; its success ends the dispatch. */
  lemma NativeOnlyWithData(env: Env, path: string, data: Option<Bytes>)
    ensures var r := PrintPdf(env, path, data);
            (r.tried != [] && r.tried[0].NativeSpool?) <==> env.isFile(path) && TruthyBytes(data)
    ensures env.isFile(path) && TruthyBytes(data) && NativeSucceeds(env) ==>
              PrintPdf(env, path, data) == Dispatch([NativeSpool(NativeRouteFor(env.os), data.value)],
                                                   Printed(NativeSpool(NativeRouteFor(env.os), data.value)))
  {
  }

  /** A native failure, including an unknown system's, is caught: the rest runs as if there were no bytes. */
  lemma NativeFailureFallsThrough(env: Env, path: string, data: Option<Bytes>)
    requires env.isFile(path) && TruthyBytes(data) && !NativeSucceeds(env)
    ensures var r := PrintPdf(env, path, data);
            var rest := PrintPdf(env, path, None);
            r == Dispatch([NativeSpool(NativeRouteFor(env.os), data.value)] + rest.tried, rest.outcome)
    ensures !KnownOs(env.os) ==> !NativeSucceeds(env)
  {
  }

  /** Ghostscript is attempted only when a command was found; its success ends the dispatch, its failure moves on. */
  lemma GhostscriptOnlyIfFound(env: Env, path: string, data: Option<Bytes>)
    ensures var r := PrintPdf(env, path, data);
            (exists i :: 0 <= i < |r.tried| && r.tried[i].GhostscriptRun?) ==>
              TruthyString(GhostscriptCmd(env.os, env.which))
    ensures var r := PrintPdf(env, path, data);
            r.outcome.Printed? && r.outcome.via.GhostscriptRun? ==> env.gsOk
    ensures var r := PrintPdf(env, path, data);
            env.isFile(path) && !(TruthyBytes(data) && NativeSucceeds(env))
            && TruthyString(GhostscriptCmd(env.os, env.which)) && !env.gsOk ==>
              r.outcome.Unsupported? || r.outcome.via.IsOsFallback()
    ensures var r := PrintPdf(env, path, data);
            env.isFile(path) && !(TruthyBytes(data) && NativeSucceeds(env))
            && TruthyString(GhostscriptCmd(env.os, env.which)) && env.gsOk ==>
              r.outcome == Printed(GhostscriptAction(env, path).value)
  {
  }

  /** With nothing earlier succeeding, an unknown system ends in the not-implemented error, and only then. */
  lemma UnsupportedOsLast(env: Env, path: string, data: Option<Bytes>)
    ensures PrintPdf(env, path, data).outcome.Unsupported? <==>
              && env.isFile(path) && !KnownOs(env.os)
              && !(TruthyBytes(data) && NativeSucceeds(env))
              && !(TruthyString(GhostscriptCmd(env.os, env.which)) && env.gsOk)
  {
  }

  /** On a known system the last resort is the print verb on Windows and `lp <path>` elsewhere; its failure propagates. */
  lemma OsFallbackUncaught(env: Env, path: string, data: Option<Bytes>)
    requires env.isFile(path) && KnownOs(env.os)
    requires !(TruthyBytes(data) && NativeSucceeds(env))
    requires !(TruthyString(GhostscriptCmd(env.os, env.which)) && env.gsOk)
    ensures var r := PrintPdf(env, path, data);
            r.tried[|r.tried| - 1] == (if IsWin(env.os) then Startfile(path, "print") else RunLp(["lp", path]))
    ensures var r := PrintPdf(env, path, data);
            r.outcome == if env.fallbackOk then Printed(r.tried[|r.tried| - 1]) else Raised(r.tried[|r.tried| - 1])
  {
  }

  /** A Linux file with no bytes and no Ghostscript goes straight to `lp` with the exact path. */
  lemma LpScenario(env: Env, path: string)
    requires env.os == Linux && env.isFile(path)
    requires env.which("gs") == None
    ensures PrintPdf(env, path, None).tried == [RunLp(["lp", path])]
  {
  }
}

=== FILE: selection.dfy ===
/**
 * The transform from a drag on the rendered page image to a media box.
 *
 * Image pixels run right and down from the top-left corner; page units run
 * right and up from the lower-left corner, so the y axis is flipped. The
 * transform as the window writes it scales into [0, width] x [0, height],
 * which is the page only when the media box starts at the origin;
 * `SelectionToPageBox` is the corrected transform that adds the box's own
 * lower-left corner.
 */
module Selection {
  import opened Geometry

  /** A drag on the rendered image: where the button went down and where it came up. */
  datatype Drag = Drag(startX: real, startY: real, endX: real, endY: real)

  function Max(a: real, b: real): real { if a >= b then a else b }

  function Min(a: real, b: real): real { if a <= b then a else b }

  /** The same rectangle dragged the opposite way. */
  function Reversed(d: Drag): Drag {
    Drag(d.endX, d.endY, d.startX, d.startY)
  }

  /** The same rectangle dragged along its other diagonal. */
  function OtherDiagonal(d: Drag): Drag {
    Drag(d.startX, d.endY, d.endX, d.startY)
  }

  /** `b` is the well-formed box whose opposite corners are (x1, y1) and (x2, y2). */
  predicate Spans(b: Box, x1: real, y1: real, x2: real, y2: real) {
    && b.WellFormed()
    && ((b.left == x1 && b.right == x2) || (b.left == x2 && b.right == x1))
    && ((b.bottom == y1 && b.top == y2) || (b.bottom == y2 && b.top == y1))
  }

  /** The drag lies on the image. */
  predicate OnImage(d: Drag, imageW: real, imageH: real) {
    && 0.0 <= d.startX <= imageW && 0.0 <= d.endX <= imageW
    && 0.0 <= d.startY <= imageH && 0.0 <= d.endY <= imageH
  }

  // ---------------------------------------------------------------------------
  // As written: offsets measured from the page origin

  /** Pixel column to page x, scaled to the box width and measured from 0. */
  function MediaX(x: real, imageW: real, mboxW: real): real
    requires imageW != 0.0
  {
    x / imageW * mboxW
  }

  /** Pixel row to page y, flipped and scaled to the box height and measured from 0. */
  function MediaY(y: real, imageH: real, mboxH: real): real
    requires imageH != 0.0
  {
    (1.0 - y / imageH) * mboxH
  }

  /** The crop box the window computes for a drag, given the image size and the media box size. */
  function SelectionToBox(d: Drag, imageW: real, imageH: real, mboxW: real, mboxH: real): (b: Box)
    requires imageW != 0.0 && imageH != 0.0
    ensures Spans(b, MediaX(d.startX, imageW, mboxW), MediaY(d.startY, imageH, mboxH),
                     MediaX(d.endX, imageW, mboxW), MediaY(d.endY, imageH, mboxH))
  {
    var sx := MediaX(d.startX, imageW, mboxW);
    var ex := MediaX(d.endX, imageW, mboxW);
    var sy := MediaY(d.startY, imageH, mboxH);
    var ey := MediaY(d.endY, imageH, mboxH);
    Box(Min(sx, ex), Min(sy, ey), Max(sx, ex), Max(sy, ey))
  }

  /** Whichever way the rectangle is dragged, the box is the same. */
  lemma DragDirectionSymmetric(d: Drag, imageW: real, imageH: real, mboxW: real, mboxH: real)
    requires imageW != 0.0 && imageH != 0.0
    ensures SelectionToBox(Reversed(d), imageW, imageH, mboxW, mboxH)
         == SelectionToBox(d, imageW, imageH, mboxW, mboxH)
    ensures SelectionToBox(OtherDiagonal(d), imageW, imageH, mboxW, mboxH)
         == SelectionToBox(d, imageW, imageH, mboxW, mboxH)
  {
  }

  /**
   * The y axis is flipped: the top pixel row maps to the box height and the
   * bottom row to 0, and a lower row never maps higher. The left column
   * maps to 0 and the right one to the box width.
   */
  lemma AxisEnds(imageW: real, imageH: real, mboxW: real, mboxH: real)
    requires imageW != 0.0 && imageH != 0.0
    ensures MediaY(0.0, imageH, mboxH) == mboxH && MediaY(imageH, imageH, mboxH) == 0.0
    ensures MediaX(0.0, imageW, mboxW) == 0.0 && MediaX(imageW, imageW, mboxW) == mboxW
    ensures forall y1: real, y2: real :: 0.0 < imageH && 0.0 <= mboxH && y1 <= y2 ==>
              MediaY(y2, imageH, mboxH) <= MediaY(y1, imageH, mboxH)
  {
    forall y1: real, y2: real | 0.0 < imageH && 0.0 <= mboxH && y1 <= y2
      ensures MediaY(y2, imageH, mboxH) <= MediaY(y1, imageH, mboxH)
    {
      DivMonotone(y1, y2, imageH);
      MulMonotone(1.0 - y2 / imageH, 1.0 - y1 / imageH, mboxH);
    }
  }

  /** A drag on the image of a box with non-negative sides gives a crop within [0, w] x [0, h]. */
  lemma SelectionWithinPage(d: Drag, imageW: real, imageH: real, mboxW: real, mboxH: real)
    requires 0.0 < imageW && 0.0 < imageH && 0.0 <= mboxW && 0.0 <= mboxH
    requires OnImage(d, imageW, imageH)
    ensures Box(0.0, 0.0, mboxW, mboxH).Contains(SelectionToBox(d, imageW, imageH, mboxW, mboxH))
  {
    ScaleWithin(d.startX, imageW, mboxW);
    ScaleWithin(d.endX, imageW, mboxW);
    FlipWithin(d.startY, imageH, mboxH);
    FlipWithin(d.endY, imageH, mboxH);
  }

  /**
   * The as-written transform misplaces the crop on a page whose media box
   * does not start at the origin: selecting the whole image of the box
   * [100, 300] x [100, 300] yields [0, 200] x [0, 200], outside the page.
   */
  lemma OffsetBoxMisplaced()
    ensures var mbox := Box(100.0, 100.0, 300.0, 300.0);
            var b := SelectionToBox(Drag(0.0, 0.0, 200.0, 200.0), 200.0, 200.0, mbox.Width(), mbox.Height());
            b == Box(0.0, 0.0, 200.0, 200.0) && !mbox.Contains(b)
  {
  }

  /**
   * A worked case: a 612 x 792 page shown as an 800 x 600 image, with the
   * drag from (100, 100) to (300, 300), crops to [76.5, 229.5] x [396, 660].
   */
  lemma LetterPageExample()
    ensures SelectionToBox(Drag(100.0, 100.0, 300.0, 300.0), 800.0, 600.0, 612.0, 792.0)
         == Box(76.5, 396.0, 229.5, 660.0)
  {
  }

  // ---------------------------------------------------------------------------
  // Corrected: offsets measured from the media box's lower-left corner

  function PageX(x: real, imageW: real, mbox: Box): real
    requires imageW != 0.0
  {
    mbox.left + MediaX(x, imageW, mbox.Width())
  }

  function PageY(y: real, imageH: real, mbox: Box): real
    requires imageH != 0.0
  {
    mbox.bottom + MediaY(y, imageH, mbox.Height())
  }

  /** The crop box for a drag on the image of `mbox`, placed within `mbox` itself. */
  function SelectionToPageBox(d: Drag, imageW: real, imageH: real, mbox: Box): (b: Box)
    requires imageW != 0.0 && imageH != 0.0
    ensures Spans(b, PageX(d.startX, imageW, mbox), PageY(d.startY, imageH, mbox),
                     PageX(d.endX, imageW, mbox), PageY(d.endY, imageH, mbox))
  {
    var sx := PageX(d.startX, imageW, mbox);
    var ex := PageX(d.endX, imageW, mbox);
    var sy := PageY(d.startY, imageH, mbox);
    var ey := PageY(d.endY, imageH, mbox);
    Box(Min(sx, ex), Min(sy, ey), Max(sx, ex), Max(sy, ey))
  }

  /** Whichever way the rectangle is dragged, the corrected box is the same. */
  lemma PageBoxSymmetric(d: Drag, imageW: real, imageH: real, mbox: Box)
    requires imageW != 0.0 && imageH != 0.0
    ensures SelectionToPageBox(Reversed(d), imageW, imageH, mbox) == SelectionToPageBox(d, imageW, imageH, mbox)
    ensures SelectionToPageBox(OtherDiagonal(d), imageW, imageH, mbox) == SelectionToPageBox(d, imageW, imageH, mbox)
  {
  }

  /** Selecting the whole image selects exactly the current media box. */
  lemma WholeImageSelectsPage(imageW: real, imageH: real, mbox: Box)
    requires imageW != 0.0 && imageH != 0.0
    requires mbox.WellFormed()
    ensures SelectionToPageBox(Drag(0.0, 0.0, imageW, imageH), imageW, imageH, mbox) == mbox
  {
    AxisEnds(imageW, imageH, mbox.Width(), mbox.Height());
  }

  /** A drag on the image selects a box within the current media box. */
  lemma PageSelectionWithinBox(d: Drag, imageW: real, imageH: real, mbox: Box)
    requires 0.0 < imageW && 0.0 < imageH && mbox.WellFormed()
    requires OnImage(d, imageW, imageH)
    ensures mbox.Contains(SelectionToPageBox(d, imageW, imageH, mbox))
  {
    PageXWithin(d.startX, imageW, mbox);
    PageXWithin(d.endX, imageW, mbox);
    PageYWithin(d.startY, imageH, mbox);
    PageYWithin(d.endY, imageH, mbox);
  }

  lemma PageXWithin(x: real, imageW: real, mbox: Box)
    requires 0.0 <= x <= imageW && 0.0 < imageW && mbox.WellFormed()
    ensures mbox.left <= PageX(x, imageW, mbox) <= mbox.right
  {
    ScaleWithin(x, imageW, mbox.Width());
  }

  lemma PageYWithin(y: real, imageH: real, mbox: Box)
    requires 0.0 <= y <= imageH && 0.0 < imageH && mbox.WellFormed()
    ensures mbox.bottom <= PageY(y, imageH, mbox) <= mbox.top
  {
    FlipWithin(y, imageH, mbox.Height());
  }

  /** On a media box anchored at the origin the corrected and as-written transforms agree. */
  lemma PageBoxAgreesAtOrigin(d: Drag, imageW: real, imageH: real, mbox: Box)
    requires imageW != 0.0 && imageH != 0.0
    requires mbox.left == 0.0 && mbox.bottom == 0.0
    ensures SelectionToPageBox(d, imageW, imageH, mbox)
         == SelectionToBox(d, imageW, imageH, mbox.Width(), mbox.Height())
  {
  }

  // ---------------------------------------------------------------------------
  // Real-arithmetic helpers

  lemma DivMonotone(a: real, b: real, n: real)
    requires 0.0 < n && a <= b
    ensures a / n <= b / n
  {
    assert b / n - a / n == (b - a) / n;
  }

  lemma MulMonotone(a: real, b: real, w: real)
    requires a <= b && 0.0 <= w
    ensures a * w <= b * w
  {
    assert b * w - a * w == (b - a) * w;
  }

  lemma ScaleWithin(x: real, n: real, w: real)
    requires 0.0 <= x <= n && 0.0 < n && 0.0 <= w
    ensures 0.0 <= x / n * w <= w
  {
    DivMonotone(0.0, x, n);
    DivMonotone(x, n, n);
    assert n / n == 1.0;
    MulMonotone(0.0, x / n, w);
    MulMonotone(x / n, 1.0, w);
  }

  lemma FlipWithin(y: real, n: real, h: real)
    requires 0.0 <= y <= n && 0.0 < n && 0.0 <= h
    ensures 0.0 <= (1.0 - y / n) * h <= h
  {
    DivMonotone(0.0, y, n);
    DivMonotone(y, n, n);
    assert n / n == 1.0;
    MulMonotone(0.0, 1.0 - y / n, h);
    MulMonotone(1.0 - y / n, 1.0, h);
  }
}

=== FILE: wrappers.dfy ===
/** Optional values, standing in for Python's `None`-or-value results. */
module Wrappers {

  datatype Option<+T> = None | Some(value: T)

  type Bytes = seq<bv8>

  /** Python truthiness of an optional string: `None` and `""` are both false. */
  predicate TruthyString(o: Option<string>) {
    o.Some? && o.value != ""
  }

  /** Python truthiness of optional bytes: `None` and `b""` are both false. */
  predicate TruthyBytes(o: Option<Bytes>) {
    o.Some? && o.value != []
  }
}
